=== FILE: README.md ===
# GameMode client request logic in Dafny

This project models the decision logic of the GameMode tester and client library. A process uses them to ask the session's game-mode daemon to register it, unregister it or report its status. The model covers three pieces:

- **The native request library** (`GameModeLib`, from `lib/gamemode.c`). Six entry points map to six D-Bus methods of `com.feralinteractive.GameMode`. `gamemode_request` builds the call: the caller's pid as an INT32, plus the target pid as a second INT32 only when that pid is non-zero. It then sends the call and decodes the reply. Every failure that returns gives -1 and rewrites a 512-byte process-wide error buffer. A success leaves the buffer untouched.
- **The header-only client binder** (`ClientBinder`, from `lib/gamemode_client.h`). On first use it opens `libgamemode.so0`, and `libgamemode.so` if that fails. It then walks a NULL-terminated symbol table and looks up `real_gamemode_<nick>` for each entry. A missing required symbol abandons the binding. A missing optional one is skipped. The outcome is cached in `init`: 0 means untried, 1 means tried and failed, 2 means bound. Later calls never retry. The library and symbol names are the ones the header's macros are meant to form; as written, the macros do not form them (see "## Findings").
- **The tester window's switch** (`SwitchController`, from `app/window.c`). Flipping the switch makes it insensitive and sends `RegisterGame` or `UnregisterGame` with the window's pid. The integer reply, which defaults to -1, decides whether the switch's `state` or its `active` property is written back. The toggle handler is blocked during that write, and the switch then becomes sensitive again.

The environment is passed in as oracles:
- The bus is a `GameModeLib.Bus`. It records whether connecting worked, whether the message could be allocated, and which reply a sent call receives (None when no pending call was created).
- How libdbus treats a NULL object argument is a `GameModeLib.Checks`: it aborts the process by default, returns without effect when `DBUS_FATAL_WARNINGS=0`, and dereferences the argument in a build without checks.
- `dlopen` and `dlsym` are the two functions of a `ClientBinder.Loader`.
- The proxy reply is an `Option<Reply>`.

Shared vocabulary lives in three small modules:
- `Wrappers`: `Option` and `Result`.
- `CText`: 32-bit integers and what `vsnprintf` leaves in a fixed buffer.
- `DBusMessage`: arguments, method calls and replies.

`ClientBinder.StaticClient` wraps the functional binder as the process-wide static object.

Where the documented design and the code disagree, the model follows the code:
- The code does not treat a NULL bus connection as a failure of its own. It logs the failure and passes the NULL connection on to libdbus. When the message is then created, the request returns only if libdbus's failed checks are non-fatal, and then with "Did not receive a reply"; otherwise the outcome is not defined by the library (`GameModeLib.RequestAsWritten` gives None). When message construction fails as well, the diagnostic is "Could not create dbus message" instead.
- The symbol table holds only `error_string`, and it is required. No stubs are installed for optional symbols, so a missing optional symbol just leaves its slot unset.
- The by-pid entry points with pid 0 send the by-pid method with a single argument (`GameModeLib.ForPidZeroSendsOneArgument`).

Each defect under "## Findings" is modelled twice: a member as written, which the entry points and the window use, and a corrected member beside it. The exceptions are the binder members that describe repeated calls: `ClientBinder.FailureIsCached`, `ClientBinder.SuccessIsCached`, `ClientBinder.History`, `ClientBinder.HistoryLoadsAtMostOnce`, `ClientBinder.HistoryKeepsVerdict` and `ClientBinder.StaticClient.Ensure`. They use the corrected `ClientBinder.EnsureLibrary`, because the function as written has no defined result on its successful first call.

## Model

| member | source | states |
|---|---|---|
| `CText.Stored` | lib/gamemode.c:51 | the error buffer holds the longest prefix of the formatted text that leaves room for the NUL: the whole text when it is shorter than the buffer, otherwise exactly size-1 characters |
| `CText.StoredTruncatedIff` | lib/gamemode.c:51-54 | the stored text differs from the formatted text exactly when `vsnprintf`'s return value reaches the buffer size |
| `GameModeLib.LogError` | lib/gamemode.c:44-62 | `log_error` as written always returns -1; the buffer holds exactly what `vsnprintf` stores: the whole message when it fits, otherwise its first 511 characters; "Error log overflow" is reported exactly when the message is longer than 512 characters |
| `GameModeLib.OverflowCheckMissesExactFit` | lib/gamemode.c:51-55 | a 512-character message is truncated, yet `log_error` as written does not report it |
| `GameModeLib.LogErrorCorrected` | lib/gamemode.c:51-55 | with the test `n >= sizeof (error_string)`, overflow is reported exactly when the message was cut; the stored text and the return value are those of the function as written |
| `GameModeLib.OverflowCheckIffTruncated` | lib/gamemode.c:51-55 | the test `n >= 512` reports exactly the truncated messages |
| `GameModeLib.TargetPid` | lib/gamemode.c:180-214 | the three simple entry points pass pid 0; the three by-pid entry points pass their pid unchanged |
| `GameModeLib.MethodName` | lib/gamemode.c:180-214 | each entry point calls its own method: the daemon-side reading of the method name and pid gives back the same entry point; exactly the by-pid variants use a `ByPID` method |
| `GameModeLib.MethodNameInjective` | lib/gamemode.c:180-214 | two entry points that send the same method and pid are the same entry point |
| `GameModeLib.EncodeArgs` | lib/gamemode.c:135-142 | the argument list starts with the caller's pid as INT32; a second INT32 carrying the target pid is present exactly when the target pid is non-zero; the receiving side reads both pids back |
| `GameModeLib.BuildCall` | lib/gamemode.c:127-142 | the call goes to the GameMode name, path and interface, names the requested method, and carries arguments that decode to the caller and target pids |
| `GameModeLib.DecodeReply` | lib/gamemode.c:150-164 | a reply is classified as missing, an error reply, or a method return; it decodes to a value exactly when its first argument is an INT32, and then to that INT32; the daemon's one-INT32 reply decodes to its value |
| `GameModeLib.Received` | lib/gamemode.c:144-150 | on a connected bus the reply is the daemon's answer to the call; on a NULL connection, with libdbus returning from its failed checks, no reply is obtained |
| `GameModeLib.RequestResult` | lib/gamemode.c:110-170 | what the function computes when every libdbus call returns: if message construction fails, -1, nothing sent, the buffer holds the construction diagnostic. A call is sent only on a connected bus, and it is the call built for the arguments. A well-formed reply is returned exactly and leaves the error buffer unchanged. No reply, an error reply (diagnostic names method and interface) or a malformed reply each return -1 with their own diagnostic |
| `GameModeLib.HeldAtReturn` | lib/gamemode.c:113-169 | at return the connection is held exactly when connecting worked, and the reply and pending call exactly when a reply was obtained |
| `GameModeLib.RequestAsWritten` | lib/gamemode.c:64-170 | as written, with libdbus's default or no checks, the request returns only when it obtained a reply: every other path hands a NULL object to libdbus, in the body or in a cleanup handler. With non-fatal checks it always returns. When it returns, it returns what `RequestResult` states |
| `GameModeLib.Request` | lib/gamemode.c:64-170 | with the cleanup handlers testing the object, the request also returns on a failed message construction, whatever the checks; the NULL connection and a missing pending call still make it depend on the checks |
| `GameModeLib.CreateFailureAbortsAsWritten` | lib/gamemode.c:92-108 | as written, a failed message construction passes the NULL message and pending call to their `unref`, so with the default checks the request does not return |
| `GameModeLib.CreateFailureReturnsMinusOne` | lib/gamemode.c:127-132 | with the corrected cleanup handlers, a failed message construction returns -1, sends nothing and stores "Could not create dbus message", whatever the checks |
| `GameModeLib.Perform` | lib/gamemode.c:180-214 | each entry point, as written, sends its own method name with the arguments encoded from the caller's pid and its target pid |
| `GameModeLib.ErrorString` | lib/gamemode.c:174-178 | `real_gamemode_error_string` returns the buffer's contents, a string shorter than 512 characters |
| `GameModeLib.RequestFailsWithMinusOne` | lib/gamemode.c:119-169 | every request that returns gives either the daemon's well-formed answer with the buffer unchanged, or -1 with the diagnostic of its construction failure or of the reply it decoded; a request that does not return ran with fatal or no checks |
| `GameModeLib.ErrorReplyNamesMethod` | lib/gamemode.c:157-159 | an error reply returns -1 whatever the checks, with a diagnostic that starts with "Could not call method '<method>' on 'com.feralinteractive.GameMode'" |
| `GameModeLib.ErrorStringReportsLastFailure` | lib/gamemode.c:157-178 | after a failing request and then a successful one, `real_gamemode_error_string` still returns the failing request's diagnostic |
| `GameModeLib.ForPidZeroSendsOneArgument` | lib/gamemode.c:138-142 | `real_gamemode_request_start_for (0)` on a connected bus sends `RegisterGameByPID` with only the caller's pid; with non-fatal checks it always returns |
| `ClientBinder.SoNameIsVersioned` | lib/gamemode_client.h:45-47 | the intended versioned library name is `libgamemode.so0` |
| `ClientBinder.SymbolName` | lib/gamemode_client.h:81-87 | a symbol's intended exported name is `real_gamemode_` followed by its short name |
| `ClientBinder.SymbolNameInjective` | lib/gamemode_client.h:81-87 | different short names are looked up under different exported names |
| `ClientBinder.Stringify` | lib/gamemode_client.h:42-50 | `STRINGIFY (x)` becomes the literal `"x"` exactly where the macro is still defined, and stays an unexpanded call elsewhere |
| `ClientBinder.StringConstant` | lib/gamemode_client.h:47 | adjacent tokens form a string constant exactly when every one of them is a string literal |
| `ClientBinder.NamesNotFormedAsWritten` | lib/gamemode_client.h:49-50 | with `STRINGIFY` undefined before its uses, neither `GAMEMODE_SONAME` nor any `GMCSYM` name forms a string constant |
| `ClientBinder.NamesFormedWithStringify` | lib/gamemode_client.h:45-47 | with `STRINGIFY` defined at the point of use, the macros form `libgamemode.so0` and `real_gamemode_<nick>` |
| `ClientBinder.LogError` | lib/gamemode_client.h:90-99 | the client's error log holds exactly what `vsnprintf` stores in the 256-byte buffer: the whole message when it fits, otherwise its first 255 characters; nothing else in the client changes |
| `ClientBinder.LoadSymbol` | lib/gamemode_client.h:102-123 | returns -1 exactly for a required symbol that `dlsym` fails to resolve, 0 otherwise; a resolved symbol marks its slot bound and keeps the log; a failed one leaves the slots alone and logs the symbol and the `dlerror` text |
| `ClientBinder.LoadSymbols` | lib/gamemode_client.h:149-155 | the walk reaches the terminator exactly when every required entry before it resolves, and then has looked up every entry's name in table order; otherwise it stopped at the first required symbol that fails: it has looked up a prefix ending with that symbol, and every entry before it resolved; `init` and the library stay as they were |
| `ClientBinder.LoadSymbolsBindsTableSlots` | lib/gamemode_client.h:149-155 | the walk keeps every slot already bound and binds only slots named by table entries before the terminator |
| `ClientBinder.OpenLibrary` | lib/gamemode_client.h:139-147 | the versioned name is opened first, and the unversioned name only when that fails; the handle kept is the versioned name's when it opens, otherwise the unversioned name's answer |
| `ClientBinder.FirstCall` | lib/gamemode_client.h:139-157 | a first call tries `libgamemode.so0`, and `libgamemode.so` only when that fails, and keeps the handle the open sequence returned; it leaves `init` at 1 or 2, and 2 exactly when a library opened and every required symbol resolved, and then every entry up to the terminator was looked up; when a library opened but the bind failed, the lookups stop at the first required symbol that does not resolve, all before it having resolved; with no library no symbol is looked up |
| `ClientBinder.EnsureLibraryAsWritten` | lib/gamemode_client.h:125-158 | with `init` non-zero: nothing is opened or looked up, the client is unchanged, and the client is returned exactly when `init > 1`, NULL otherwise; with `init` 0 the first-call rules apply; the only path without a return value is the successful first binding |
| `ClientBinder.EnsureLibrary` | lib/gamemode_client.h:125-158 | with the missing return restored, the client is returned exactly when it ends up bound (`init` 2); otherwise it behaves like the as-written function |
| `ClientBinder.FailureIsCached` | lib/gamemode_client.h:136-147 | after a call of the corrected function returns NULL, the next call opens nothing, looks up nothing, leaves the client unchanged and returns NULL, whatever the loader would now answer |
| `ClientBinder.SuccessIsCached` | lib/gamemode_client.h:136-137 | after a call of the corrected function returns the client, the next call returns it again with no load attempt |
| `ClientBinder.HistoryLoadsAtMostOnce` | lib/gamemode_client.h:136-147 | for the corrected function (the missing return restored): in any sequence of calls only the first may open a library; every later call opens and looks up nothing and returns what the first returned; from a settled client no call opens anything |
| `ClientBinder.HistoryKeepsVerdict` | lib/gamemode_client.h:136-137 | from a client with `init` non-zero, every call of any sequence leaves the client unchanged, tries nothing and returns the client exactly when `init` is 2 |
| `ClientBinder.DereferenceDefinedOnlyWhenAlreadyBound` | lib/gamemode_client.h:160-207 | the as-written function returns a pointer the public wrappers can dereference exactly when the client was already bound before the call |
| `ClientBinder.FirstSuccessfulBindReturnsNoValue` | lib/gamemode_client.h:149-158 | binding the header's table when everything loads reaches the end of the function without a return value |
| `ClientBinder.HeaderTableBindsErrorString` | lib/gamemode_client.h:128-133 | for the header's own table, the client keeps `dlopen`'s answer for `libgamemode.so0`, or for `libgamemode.so` when that fails; binding succeeds exactly when that answer is a library in which `real_gamemode_error_string` resolves; that is the only symbol looked up, and with no library nothing is looked up and NULL is returned |
| `ClientBinder.StaticClient.Ensure` | lib/gamemode_client.h:125-158 | the static `cli` runs the corrected function on its own state: the object stays in a reachable state, and once `init` is non-zero a call leaves it unchanged |
| `SwitchController.SwitchCall` | app/window.c:186-205 | enabling calls `RegisterGame` and disabling calls `UnregisterGame`, each with exactly one INT32 (the window's pid); these are the same method and arguments the library sends for its simple start and end requests |
| `SwitchController.SwitchResult` | app/window.c:208-231 | the result is -1 unless the reply is a method return of exactly one INT32, which is then returned unchanged |
| `SwitchController.ResultAgreesWithLibrary` | app/window.c:216-225 | on a one-INT32 reply the window and the library read the same result; a reply with a trailing argument is read by the library but gives -1 in the window |
| `SwitchController.FinishWrite` | app/window.c:142-177 | result 0 writes `state` with the current `active` value; any other result writes `active`: false after an enable request, and true after a disable request unless the result is -2 |
| `SwitchController.OnToggled` | app/window.c:128-140 | the switch becomes insensitive, one call for the new position is issued, and `active` and `state` are left as they are |
| `SwitchController.SetActive` | app/window.c:172-179 | writing `active` with its current value changes nothing; a new value reaches an unblocked handler, which issues a call and leaves `state`, while with the handler blocked GTK's default handler moves `state` to the new value and no call is issued |
| `SwitchController.SetState` | app/window.c:174-175 | writing `state` with the current `active` value changes only `state`, so it never reaches the handler |
| `SwitchController.ToggleFinish` | app/window.c:142-182 | the switch is always sensitive afterwards; no call is issued and the block count is restored; on 0 `state` takes the `active` value; otherwise `active` takes the value chosen by the result, and `state` follows it exactly when `active` moved |
| `SwitchController.ReplyArrived` | app/window.c:208-232 | a reply settles one outstanding call and issues none |
| `SwitchController.ToggleKeepsProtocol` | app/window.c:128-140 | a user flip of a sensitive switch moves `active`, leaves `state`, and leaves the switch insensitive with exactly one call outstanding, the one for the new position |
| `SwitchController.ReplyKeepsProtocol` | app/window.c:172-181 | after the reply the switch is sensitive, nothing is outstanding, nothing new was sent, and the handler is unblocked |
| `SwitchController.UnblockedFinishWouldRequest` | app/window.c:172-179 | without the block, the finishing write would issue a second call exactly when the result is non-zero and moves `active`; the write for 0 never would |
| `SwitchController.StepsKeepProtocol` | app/window.c:128-232 | over any sequence of user flips and call completions, at most one call is outstanding, the switch is insensitive while it is, the handler is left unblocked, and calls are only ever appended |
| `SwitchController.RoundTrip` | app/window.c:128-232 | after a flip and its reply, exactly one call was sent and the switch is sensitive; it shows on exactly when an enable request got 0, or a disable request got something other than 0 and -2; on 0 the state confirms the requested position; `state` agrees with `active` except after a rejected disable, which leaves `state` where it was before the flip |

## Left out

- Transport selection, the sandbox-marker check and the portal side channel (socket pairs, descriptor passing): they are not part of the modelled sources.
- The libdbus transport mechanics (connecting, flushing, blocking on the pending call, appending arguments) are not modelled; the bus is an oracle. A path that hands libdbus a NULL object is modelled only by whether the request still returns (`GameModeLib.Checks`), with no claim about what libdbus prints or how the process ends.
- `dlopen`, `dlsym` and `dlerror` are oracles. The store `memcpy (cli + sym->offset, sym, sym->size)` is not modelled. It adds `offset` whole `GameModeClient` sizes to `cli`, so it writes outside the static client, and it copies the symbol descriptor rather than the address `dlsym` returned. `ClientBinder.LoadSymbol` records a resolved slot as bound by name only, and its promise that `init`, the library and the log are unchanged assumes that this stray write does not land on them; the code does not guarantee it.
- The seven public inline wrappers (`gamemode_request_start` and the rest) are not modelled as calls. They dereference whatever `gamemode_client_ensure_library` returned and call through a slot whose contents the model does not track. The six request slots are never filled by the header's table. `ClientBinder.DereferenceDefinedOnlyWhenAlreadyBound` states when the dereference is defined.
- Optional-symbol stubs: the code has none, so an optional miss leaves the slot unset.
- Thread safety of the binder's static state and of both error buffers: the code is explicitly not thread-safe, and the model is sequential.
- `CText.Stored`: one character stands for one byte, as for ASCII text. `vsnprintf` counts bytes, so for daemon error messages or `dlerror` texts outside ASCII the C buffer may hold fewer characters, or a character cut in the middle, and the 512- and 256-byte bounds are proved for characters only.
- `printf` formatting: each `%s` is modelled as concatenating its argument, and the integer conversions only appear in TRACE output. TRACE and DEBUG output and the stderr echo of errors are left out. The one exception is whether `log_error` reports an overflow, which is covered under Findings.
- `pid_t`, `int` and `dbus_int32_t` are all 32-bit signed here, so the casts between them are identities (`CText.Int32`).
- GTK's switch is modelled only through `gtk_switch_set_active`, `gtk_switch_set_state`, the `state-set` signal and its default handler, which is what the window relies on. The window template that connects `on_gamemode_toggled` to `state-set` is not part of this model; the connection is inferred from the handler's signature. Animation, accessibility and the `notify` signals are left out.
- Widget template setup, proxy creation and `on_bus_ready` (app/window.c:65-126), and all of `app/main.c`: GUI bootstrap with no decision logic.

## Findings

| source | as written | input that shows it | evidently intended | confidence | as-written member | corrected member |
|---|---|---|---|---|---|---|
| lib/gamemode_client.h:157-158 | the successful path sets `cli.init = 2` and reaches the closing brace of a function returning `GameModeClient *` with no `return` | first call, both the library and `real_gamemode_error_string` load | `return &cli;` after `cli.init = 2` | high, not executed | `ClientBinder.EnsureLibraryAsWritten`, `ClientBinder.FirstSuccessfulBindReturnsNoValue` | `ClientBinder.EnsureLibrary` |
| lib/gamemode.c:54 | `if (n > sizeof (error_string))` reports overflow only from 513 characters | a formatted message of exactly 512 characters: stored as 511, not reported | `n >= sizeof (error_string)` | high, not executed | `GameModeLib.LogError`, `GameModeLib.OverflowCheckMissesExactFit` | `GameModeLib.LogErrorCorrected`, `GameModeLib.OverflowCheckIffTruncated` |
| lib/gamemode.c:64-108 | the cleanup handlers test `bus == NULL`, `msg == NULL` and `call == NULL`: the address of the variable, which is never NULL; so a NULL object is passed to `dbus_*_unref` | `dbus_message_new_method_call` fails: the NULL message and pending call reach their `unref`, and with libdbus's default checks the process aborts instead of returning -1 | test `*bus`, `*msg` and `*call` | high, not executed | `GameModeLib.RequestAsWritten`, `GameModeLib.CreateFailureAbortsAsWritten` | `GameModeLib.Request`, `GameModeLib.CreateFailureReturnsMinusOne` |
| lib/gamemode_client.h:49-50 | `#undef STRINGIFY` comes before the table (line 131) and the `dlopen` call (line 140) expand `GMCSYM` and `GAMEMODE_SONAME`, so `STRINGIFY (…)` is left unexpanded there | any use of the header: `"libgamemode.so" STRINGIFY (0)` is not a string constant, so the header does not compile | keep `STRINGIFY` defined, or undefine it after its last use | high, not executed | `ClientBinder.NamesNotFormedAsWritten` | `ClientBinder.NamesFormedWithStringify`, `ClientBinder.SoNameIsVersioned` |

=== FILE: client_binder.dfy ===
/** The header-only client loader (`lib/gamemode_client.h`): on first use it opens
    the implementation library, versioned name first, and resolves the entries
    of a symbol table that ends with a nameless entry. A missing required symbol
    abandons the binding, a missing optional one is skipped. The outcome is
    cached in a three-valued `init` field: 0 untried, 1 tried and failed (or in
    progress), 2 bound.

    `dlopen` and `dlsym` are oracles (`Loader`). A resolved slot is recorded
    abstractly, by the symbol's short name, without any claim about what the
    program stores into the client structure. */
module ClientBinder {

  import opened Wrappers
  import opened CText

  const LibName: string := "libgamemode.so"
  /** `GAMEMODE_LIBVER` after stringification. */
  const LibVersion: string := "0"
  /** `GAMEMODE_SONAME`: the library name with the version glued on. */
  const SoName: string := LibName + LibVersion
  const SymbolPrefix: string := "real_gamemode_"

  /** Size in bytes of the client's own error buffer. */
  const ErrorLogSize: nat := 256

  lemma SoNameIsVersioned()
    ensures SoName == "libgamemode.so0"
  {
  }

  /* ---------------------------------------------------------------------------
     The symbol table
     ------------------------------------------------------------------------- */

  /** A symbol descriptor: the client field's short name and whether the
      binding needs it. */
  datatype Symbol = Symbol(nick: string, need: bool)

  /** `GMCSYM`: the exported name is the prefix followed by the short name. */
  function SymbolName(sym: Symbol): (name: string)
    ensures |name| == |SymbolPrefix| + |sym.nick|
    ensures name[..|SymbolPrefix|] == SymbolPrefix
    ensures name[|SymbolPrefix|..] == sym.nick
  {
    SymbolPrefix + sym.nick
  }

  /** Distinct short names give distinct exported names. */
  lemma SymbolNameInjective(a: Symbol, b: Symbol)
    requires SymbolName(a) == SymbolName(b)
    ensures a.nick == b.nick
  {
  }

  /* ---------------------------------------------------------------------------
     Expanding the name macros
     ------------------------------------------------------------------------- */

  /** A preprocessing token the name macros leave behind: a string literal, or a
      call of a function-like macro that is not defined where it is expanded. */
  datatype Token = Literal(text: string) | UnexpandedCall(macro: string, arg: string)

  /** `STRINGIFY (x)` at its point of use: the literal `"x"` while the macro is
      defined there, otherwise an ordinary call of an undeclared function. */
  function Stringify(defined: bool, x: string): (t: Token)
    ensures t.Literal? <==> defined
    ensures defined ==> t.text == x
  {
    if defined then Literal(x) else UnexpandedCall("STRINGIFY", x)
  }

  /** The string constant a token sequence forms: adjacent literals are joined;
      anything else means it is no string constant and the header does not
      compile. */
  function StringConstant(tokens: seq<Token>): (r: Option<string>)
    ensures r.Some? <==> forall k :: 0 <= k < |tokens| ==> tokens[k].Literal?
  {
    if tokens == [] then Some("")
    else if !tokens[0].Literal? then None
    else
      match StringConstant(tokens[1..])
      case None => None
      case Some(rest) => Some(tokens[0].text + rest)
  }

  lemma SingleLiteral(x: string)
    ensures StringConstant([Literal(x)]) == Some(x)
  {
    assert [Literal(x)][1..] == [];
    assert x + "" == x;
  }

  /** `GAMEMODE_SONAME` as expanded in the `dlopen` call. */
  function SoNameTokens(stringifyDefined: bool): seq<Token> {
    [Literal(LibName), Stringify(stringifyDefined, LibVersion)]
  }

  /** The name field of `GMCSYM (nick, need)` as expanded in the table. */
  function SymbolNameTokens(stringifyDefined: bool, nick: string): seq<Token> {
    [Literal(SymbolPrefix), Stringify(stringifyDefined, nick)]
  }

  /** Whether `STRINGIFY` is defined where the header expands the two name
      macros: it is undefined right after `GAMEMODE_SONAME` is defined, before
      the table and the `dlopen` call use them. */
  const StringifyDefinedAtUse: bool := false

  /** As written, neither the library name nor any symbol name is formed. */
  lemma NamesNotFormedAsWritten(nick: string)
    ensures StringConstant(SoNameTokens(StringifyDefinedAtUse)).None?
    ensures StringConstant(SymbolNameTokens(StringifyDefinedAtUse, nick)).None?
  {
  }

  /** With `STRINGIFY` still defined at the point of use, the macros form the
      names the rest of the model uses. */
  lemma NamesFormedWithStringify(nick: string, need: bool)
    ensures StringConstant(SoNameTokens(true)) == Some(SoName)
    ensures StringConstant(SymbolNameTokens(true, nick)) == Some(SymbolName(Symbol(nick, need)))
  {
    SingleLiteral(LibVersion);
    SingleLiteral(nick);
    assert SoNameTokens(true)[1..] == [Literal(LibVersion)];
    assert SymbolNameTokens(true, nick)[1..] == [Literal(nick)];
  }

  /** A table slot: a descriptor, or the all-NULL entry that ends the table. */
  datatype TableEntry = Entry(sym: Symbol) | Terminator

  /** The table the header declares: only `error_string`, required. */
  const SymbolTable: seq<TableEntry> := [Entry(Symbol("error_string", true)), Terminator]

  /** The walk starting at `i` reaches a terminator inside the table. */
  predicate Terminated(table: seq<TableEntry>, i: nat) {
    i <= |table| && Terminator in table[i..]
  }

  /** A terminator past a non-terminator entry is also past the next index. */
  lemma TerminatedStep(table: seq<TableEntry>, i: nat)
    requires Terminated(table, i) && i < |table| && table[i].Entry?
    ensures Terminated(table, i + 1)
  {
  }

  lemma TerminatedInBounds(table: seq<TableEntry>, i: nat)
    requires Terminated(table, i)
    ensures i < |table|
  {
  }

  /** The descriptors the walk from `i` visits: everything before the terminator. */
  function Entries(table: seq<TableEntry>, i: nat): (syms: seq<Symbol>)
    requires Terminated(table, i)
    decreases |table| - i
  {
    TerminatedInBounds(table, i);
    if table[i].Terminator? then []
    else
      TerminatedStep(table, i);
      [table[i].sym] + Entries(table, i + 1)
  }

  function Names(syms: seq<Symbol>): (names: seq<string>)
    ensures |names| == |syms|
    ensures forall k :: 0 <= k < |syms| ==> names[k] == SymbolName(syms[k])
  {
    if syms == [] then [] else [SymbolName(syms[0])] + Names(syms[1..])
  }

  function Nicks(syms: seq<Symbol>): set<string> {
    set k | 0 <= k < |syms| :: syms[k].nick
  }

  lemma NamesCons(sym: Symbol, rest: seq<Symbol>)
    ensures Names([sym] + rest) == [SymbolName(sym)] + Names(rest)
    ensures Nicks([sym] + rest) == {sym.nick} + Nicks(rest)
  {
  }

  /* ---------------------------------------------------------------------------
     Client state and oracles
     ------------------------------------------------------------------------- */

  type Handle = nat
  type Address = nat

  /** `dlopen` answers a library name with a handle or NULL; `dlsym` answers a
      handle (None being NULL) and a symbol name with an address or, when
      `dlerror` reports a failure afterwards, that error text. */
  datatype Loader = Loader(
    dlopen: string -> Option<Handle>,
    dlsym: (Option<Handle>, string) -> Result<Address, string>)

  /** The static client: `init`, the library handle, the slots resolved so far
      and the contents of the client's error buffer. */
  datatype Client = Client(init: int, lib: Option<Handle>, bound: set<string>, errorLog: string)

  /** The zero-initialised static client. */
  const Initial: Client := Client(0, None, {}, "")

  /** The states the binder can reach from `Initial`. */
  predicate Valid(c: Client) {
    && 0 <= c.init <= 2
    && (c.init == 0 ==> c.lib.None? && c.bound == {})
    && (c.init == 2 ==> c.lib.Some?)
    && |c.errorLog| < ErrorLogSize
  }

  /** The client's `log_error`: formatted text cut to the 256-byte buffer. */
  function LogError(c: Client, text: string): (c': Client)
    ensures |c'.errorLog| < ErrorLogSize && c'.errorLog <= text
    ensures c'.errorLog == Stored(ErrorLogSize, text)
    ensures c'.init == c.init && c'.lib == c.lib && c'.bound == c.bound
  {
    c.(errorLog := Stored(ErrorLogSize, text))
  }

  /** A symbol acceptable under `lib`: optional, or found by `dlsym`. */
  predicate Resolves(dlsym: (Option<Handle>, string) -> Result<Address, string>, lib: Option<Handle>, sym: Symbol) {
    !sym.need || dlsym(lib, SymbolName(sym)).Success?
  }

  /** Every required symbol of `syms` is found under `lib`. */
  predicate AllResolve(dlsym: (Option<Handle>, string) -> Result<Address, string>, lib: Option<Handle>, syms: seq<Symbol>) {
    forall k :: 0 <= k < |syms| ==> Resolves(dlsym, lib, syms[k])
  }

  lemma AllResolveCons(
    dlsym: (Option<Handle>, string) -> Result<Address, string>, lib: Option<Handle>, sym: Symbol, rest: seq<Symbol>)
    ensures AllResolve(dlsym, lib, [sym] + rest) <==> Resolves(dlsym, lib, sym) && AllResolve(dlsym, lib, rest)
  {
    var syms := [sym] + rest;
    if Resolves(dlsym, lib, sym) && AllResolve(dlsym, lib, rest) {
      forall k | 0 <= k < |syms|
        ensures Resolves(dlsym, lib, syms[k])
      {
        if k > 0 {
          assert syms[k] == rest[k - 1];
        }
      }
    }
    if AllResolve(dlsym, lib, syms) {
      assert syms[0] == sym;
      forall k | 0 <= k < |rest|
        ensures Resolves(dlsym, lib, rest[k])
      {
        assert rest[k] == syms[k + 1];
      }
    }
  }

  /* ---------------------------------------------------------------------------
     gmc_internal_load_symbol and the table walk
     ------------------------------------------------------------------------- */

  /** `gmc_internal_load_symbol`: its return code and the client afterwards. */
  datatype Loaded = Loaded(code: int, client: Client)

  function LoadSymbol(
    c: Client, sym: Symbol, dlsym: (Option<Handle>, string) -> Result<Address, string>): (l: Loaded)
    ensures l.code == -1 <==> !Resolves(dlsym, c.lib, sym)
    ensures l.code == 0 || l.code == -1
    ensures l.client.init == c.init && l.client.lib == c.lib
    ensures dlsym(c.lib, SymbolName(sym)).Success? ==>
              l.client.bound == c.bound + {sym.nick} && l.client.errorLog == c.errorLog
    ensures dlsym(c.lib, SymbolName(sym)).Failure? ==>
              l.client.bound == c.bound
              && l.client.errorLog == Stored(ErrorLogSize,
                   "failed to load symbol '" + sym.nick + "': " + dlsym(c.lib, SymbolName(sym)).error)
  {
    match dlsym(c.lib, SymbolName(sym))
    case Failure(err) =>
      Loaded(if sym.need then -1 else 0,
             LogError(c, "failed to load symbol '" + sym.nick + "': " + err))
    case Success(_) =>
      Loaded(0, c.(bound := c.bound + {sym.nick}))
  }

  /** The walk's result: whether it reached the terminator, the client
      afterwards and the names passed to `dlsym`, in order. */
  datatype Walk = Walk(ok: bool, client: Client, looked: seq<string>)

  /** The `for` loop over the table from index `i`, stopping at the terminator
      or at the first required symbol that fails. */
  function LoadSymbols(
    c: Client, table: seq<TableEntry>, i: nat,
    dlsym: (Option<Handle>, string) -> Result<Address, string>): (w: Walk)
    requires Terminated(table, i)
    decreases |table| - i
    ensures w.ok <==> AllResolve(dlsym, c.lib, Entries(table, i))
    ensures w.ok ==> w.looked == Names(Entries(table, i))
    ensures !w.ok ==> 0 < |w.looked| <= |Entries(table, i)|
                      && w.looked == Names(Entries(table, i))[..|w.looked|]
                      && !Resolves(dlsym, c.lib, Entries(table, i)[|w.looked| - 1])
                      && forall k :: 0 <= k < |w.looked| - 1 ==> Resolves(dlsym, c.lib, Entries(table, i)[k])
    ensures w.client.init == c.init && w.client.lib == c.lib
    ensures |c.errorLog| < ErrorLogSize ==> |w.client.errorLog| < ErrorLogSize
  {
    TerminatedInBounds(table, i);
    match table[i]
    case Terminator => Walk(true, c, [])
    case Entry(sym) =>
      TerminatedStep(table, i);
      var later := Entries(table, i + 1);
      assert Entries(table, i) == [sym] + later;
      AllResolveCons(dlsym, c.lib, sym, later);
      NamesCons(sym, later);
      var l := LoadSymbol(c, sym, dlsym);
      if l.code < 0 then
        Walk(false, l.client, [SymbolName(sym)])
      else
        var rest := LoadSymbols(l.client, table, i + 1, dlsym);
        var looked := [SymbolName(sym)] + rest.looked;
        PrefixCons(SymbolName(sym), Names(later), |rest.looked|);
        assert !rest.ok ==> Entries(table, i)[|looked| - 1] == later[|rest.looked| - 1];
        ResolvedBeforeCons(dlsym, c.lib, sym, later, |rest.looked|);
        Walk(rest.ok, rest.client, looked)
  }

  /** The walk binds only slots named in the table, and keeps those already bound. */
  lemma {:induction false} LoadSymbolsBindsTableSlots(
    c: Client, table: seq<TableEntry>, i: nat,
    dlsym: (Option<Handle>, string) -> Result<Address, string>)
    requires Terminated(table, i)
    ensures c.bound <= LoadSymbols(c, table, i, dlsym).client.bound <= c.bound + Nicks(Entries(table, i))
    decreases |table| - i
  {
    TerminatedInBounds(table, i);
    if table[i].Entry? {
      var sym := table[i].sym;
      TerminatedStep(table, i);
      NamesCons(sym, Entries(table, i + 1));
      var l := LoadSymbol(c, sym, dlsym);
      if l.code >= 0 {
        LoadSymbolsBindsTableSlots(l.client, table, i + 1, dlsym);
      }
    }
  }

  /** A resolving head keeps a resolving prefix resolving, one entry longer. */
  lemma ResolvedBeforeCons(
    dlsym: (Option<Handle>, string) -> Result<Address, string>, lib: Option<Handle>,
    sym: Symbol, rest: seq<Symbol>, n: nat)
    ensures Resolves(dlsym, lib, sym) && n <= |rest|
            && (forall k :: 0 <= k < n - 1 ==> Resolves(dlsym, lib, rest[k]))
            ==> forall k :: 0 <= k < n ==> Resolves(dlsym, lib, ([sym] + rest)[k])
  {
    forall k | 0 <= k < n && Resolves(dlsym, lib, sym) && n <= |rest|
               && (forall j :: 0 <= j < n - 1 ==> Resolves(dlsym, lib, rest[j]))
      ensures Resolves(dlsym, lib, ([sym] + rest)[k])
    {
      if k > 0 {
        assert ([sym] + rest)[k] == rest[k - 1];
      }
    }
  }

  lemma PrefixCons<T>(x: T, xs: seq<T>, n: nat)
    requires n <= |xs|
    ensures ([x] + xs)[..n + 1] == [x] + xs[..n]
  {
  }

  /* ---------------------------------------------------------------------------
     gamemode_client_ensure_library
     ------------------------------------------------------------------------- */

  /** What `gamemode_client_ensure_library` hands back: the client, NULL, or, on
      the path that falls off the end of the function, no value at all. */
  datatype Returned = ReturnsClient | ReturnsNull | NoReturnValue

  /** One call: the client afterwards, the returned value, the library names
      passed to `dlopen` and the symbol names passed to `dlsym`, in order. */
  datatype Ensured = Ensured(client: Client, returned: Returned, libsTried: seq<string>, looked: seq<string>)

  /** Try the versioned name, then the unversioned one. */
  function OpenLibrary(dlopen: string -> Option<Handle>): (r: (Option<Handle>, seq<string>))
    ensures r.1 == if dlopen(SoName).Some? then [SoName] else [SoName, LibName]
    ensures r.0.Some? <==> dlopen(SoName).Some? || dlopen(LibName).Some?
    ensures dlopen(SoName).Some? ==> r.0 == dlopen(SoName)
    ensures dlopen(SoName).None? ==> r.0 == dlopen(LibName)
  {
    var versioned := dlopen(SoName);
    if versioned.Some? then (versioned, [SoName]) else (dlopen(LibName), [SoName, LibName])
  }

  /** A first call, from `cli.init = 1` on: open a library, then walk the table. */
  function FirstCall(c: Client, table: seq<TableEntry>, loader: Loader): (e: Ensured)
    requires Terminated(table, 0)
    ensures e.client.init == 1 || e.client.init == 2
    ensures e.client.lib == OpenLibrary(loader.dlopen).0
    ensures |e.libsTried| > 0 && e.libsTried[0] == SoName
    ensures e.libsTried == [SoName, LibName] <==> loader.dlopen(SoName).None?
    ensures e.libsTried == if loader.dlopen(SoName).Some? then [SoName] else [SoName, LibName]
    // It binds exactly when a library opens and every required symbol resolves.
    ensures e.client.init == 2 <==>
              e.client.lib.Some? && AllResolve(loader.dlsym, e.client.lib, Entries(table, 0))
    ensures e.client.init == 2 ==> e.looked == Names(Entries(table, 0))
    // With a library but no binding, the walk stopped at the first required miss.
    ensures e.client.lib.Some? && e.client.init == 1 ==>
              0 < |e.looked| <= |Entries(table, 0)|
              && e.looked == Names(Entries(table, 0))[..|e.looked|]
              && !Resolves(loader.dlsym, e.client.lib, Entries(table, 0)[|e.looked| - 1])
              && forall k :: 0 <= k < |e.looked| - 1 ==> Resolves(loader.dlsym, e.client.lib, Entries(table, 0)[k])
    ensures e.client.lib.None? ==> e.looked == []
    ensures e.returned == (if e.client.init == 2 then NoReturnValue else ReturnsNull)
    ensures |c.errorLog| < ErrorLogSize ==> Valid(e.client)
  {
    var (lib, libsTried) := OpenLibrary(loader.dlopen);
    var tried := c.(init := 1, lib := lib);
    if lib.None? then
      Ensured(tried, ReturnsNull, libsTried, [])
    else
      var w := LoadSymbols(tried, table, 0, loader.dlsym);
      if !w.ok then Ensured(w.client, ReturnsNull, libsTried, w.looked)
      else Ensured(w.client.(init := 2), NoReturnValue, libsTried, w.looked)
  }

  /** `gamemode_client_ensure_library` as written: the successful path reaches
      the closing brace without a `return`. */
  function EnsureLibraryAsWritten(c: Client, table: seq<TableEntry>, loader: Loader): (e: Ensured)
    requires Terminated(table, 0)
    // A settled client is answered from the cache, with no load attempt.
    ensures c.init != 0 ==>
              e.client == c && e.libsTried == [] && e.looked == []
              && (e.returned == ReturnsClient <==> c.init > 1)
              && (e.returned == ReturnsNull <==> c.init <= 1)
    ensures c.init == 0 ==> e == FirstCall(c, table, loader)
    // Only the successful first call lacks a return value.
    ensures e.returned == NoReturnValue <==> c.init == 0 && e.client.init == 2
    ensures Valid(c) ==> Valid(e.client)
  {
    if c.init != 0 then
      Ensured(c, if c.init > 1 then ReturnsClient else ReturnsNull, [], [])
    else
      FirstCall(c, table, loader)
  }

  /** `gamemode_client_ensure_library` with the missing `return &cli;` restored:
      a caller gets the client exactly when the client is bound. */
  function EnsureLibrary(c: Client, table: seq<TableEntry>, loader: Loader): (e: Ensured)
    requires Terminated(table, 0)
    ensures Valid(c) ==> (e.returned == ReturnsClient <==> e.client.init == 2)
    ensures e.returned != NoReturnValue
    ensures e.client == EnsureLibraryAsWritten(c, table, loader).client
    ensures e.libsTried == EnsureLibraryAsWritten(c, table, loader).libsTried
    ensures e.looked == EnsureLibraryAsWritten(c, table, loader).looked
  {
    var e := EnsureLibraryAsWritten(c, table, loader);
    if e.returned == NoReturnValue then e.(returned := ReturnsClient) else e
  }

  /* ---------------------------------------------------------------------------
     Properties across calls
     ------------------------------------------------------------------------- */

  /** A failed call is final: the next call opens nothing, looks up nothing
      and returns NULL, whatever the loader would now answer. */
  lemma FailureIsCached(c: Client, table: seq<TableEntry>, first: Loader, later: Loader)
    requires Valid(c) && Terminated(table, 0)
    ensures var once := EnsureLibrary(c, table, first);
            var again := EnsureLibrary(once.client, table, later);
            once.returned == ReturnsNull ==>
              again.returned == ReturnsNull && again.libsTried == [] && again.looked == []
              && again.client == once.client
  {
  }

  /** A bound client stays bound and is handed back with no further attempt. */
  lemma SuccessIsCached(c: Client, table: seq<TableEntry>, first: Loader, later: Loader)
    requires Valid(c) && Terminated(table, 0)
    ensures var once := EnsureLibrary(c, table, first);
            var again := EnsureLibrary(once.client, table, later);
            once.returned == ReturnsClient ==>
              again.returned == ReturnsClient && again.libsTried == [] && again.looked == []
  {
  }

  /** The calls made in turn with the loaders in `loaders`, each seeing the
      client the previous one left. */
  function History(c: Client, table: seq<TableEntry>, loaders: seq<Loader>): (runs: seq<Ensured>)
    requires Terminated(table, 0)
    decreases |loaders|
    ensures |runs| == |loaders|
  {
    if loaders == [] then []
    else
      var e := EnsureLibrary(c, table, loaders[0]);
      [e] + History(e.client, table, loaders[1..])
  }

  /** A call that tried to open a library. */
  predicate Attempted(e: Ensured) {
    e.libsTried != []
  }

  /** Over any history, only the first call may try to load anything, and
      every later call returns what the first one did, without opening or
      looking up anything. */
  lemma HistoryLoadsAtMostOnce(c: Client, table: seq<TableEntry>, loaders: seq<Loader>)
    requires Valid(c) && Terminated(table, 0)
    ensures var runs := History(c, table, loaders);
            && (c.init != 0 ==> forall k :: 0 <= k < |runs| ==> !Attempted(runs[k]))
            && forall k :: 0 < k < |runs| ==>
                 !Attempted(runs[k]) && runs[k].looked == [] && runs[k].returned == runs[0].returned
  {
    if loaders != [] {
      var e := EnsureLibrary(c, table, loaders[0]);
      var rest := History(e.client, table, loaders[1..]);
      var runs := History(c, table, loaders);
      assert runs == [e] + rest;
      assert Valid(e.client) && e.client.init != 0;
      HistoryKeepsVerdict(e.client, table, loaders[1..]);
      assert Settled(rest, e.client);
      assert e.returned == (if e.client.init == 2 then ReturnsClient else ReturnsNull);
      forall k | 0 < k < |runs|
        ensures !Attempted(runs[k]) && runs[k].looked == [] && runs[k].returned == runs[0].returned
      {
        assert runs[k] == rest[k - 1];
      }
      if c.init != 0 {
        assert !Attempted(e);
      }
    }
  }

  /** Every call of `runs` left `c` as it was, tried nothing, and returned
      what `c`'s `init` dictates. */
  predicate Settled(runs: seq<Ensured>, c: Client) {
    forall k :: 0 <= k < |runs| ==>
      && runs[k].client == c && runs[k].libsTried == [] && runs[k].looked == []
      && runs[k].returned == (if c.init == 2 then ReturnsClient else ReturnsNull)
  }

  /** From a settled client, every call returns what the client's `init`
      dictates, and opens and looks up nothing. */
  lemma {:induction false} HistoryKeepsVerdict(c: Client, table: seq<TableEntry>, loaders: seq<Loader>)
    requires Valid(c) && c.init != 0 && Terminated(table, 0)
    ensures Settled(History(c, table, loaders), c)
    decreases |loaders|
  {
    if loaders != [] {
      var e := EnsureLibrary(c, table, loaders[0]);
      assert e.client == c;
      var rest := History(c, table, loaders[1..]);
      var runs := History(c, table, loaders);
      assert runs == [e] + rest;
      HistoryKeepsVerdict(c, table, loaders[1..]);
      assert e.libsTried == [] && e.looked == [];
      assert e.returned == (if c.init == 2 then ReturnsClient else ReturnsNull);
      forall k | 0 <= k < |runs|
        ensures runs[k].client == c && runs[k].libsTried == [] && runs[k].looked == []
        ensures runs[k].returned == (if c.init == 2 then ReturnsClient else ReturnsNull)
      {
        if k > 0 {
          assert runs[k] == rest[k - 1];
        }
      }
    }
  }

  /** The public wrappers dereference what the as-written function returns, so
      they are defined only when the client was already bound before the call. */
  lemma DereferenceDefinedOnlyWhenAlreadyBound(c: Client, table: seq<TableEntry>, loader: Loader)
    requires Valid(c) && Terminated(table, 0)
    ensures EnsureLibraryAsWritten(c, table, loader).returned == ReturnsClient <==> c.init == 2
  {
  }

  /** A loader under which both names open and every symbol resolves. */
  function EverythingLoads(): Loader {
    Loader(_ => Some(1), (_, _) => Success(1))
  }

  /** The first successful binding of the header's own table returns no value. */
  lemma FirstSuccessfulBindReturnsNoValue()
    ensures EnsureLibraryAsWritten(Initial, SymbolTable, EverythingLoads()).returned == NoReturnValue
  {
  }

  /** For the header's table, binding needs a library under either name and
      exactly `real_gamemode_error_string` in it. */
  lemma HeaderTableBindsErrorString(loader: Loader)
    ensures var e := EnsureLibrary(Initial, SymbolTable, loader);
            var lib := if loader.dlopen(SoName).Some? then loader.dlopen(SoName) else loader.dlopen(LibName);
            && e.client.lib == lib
            && (e.returned == ReturnsClient <==>
                  lib.Some? && loader.dlsym(lib, "real_gamemode_error_string").Success?)
            && (lib.Some? ==> e.looked == ["real_gamemode_error_string"])
            && (lib.None? ==> e.looked == [] && e.returned == ReturnsNull)
  {
    assert SymbolTable[1].Terminator?;
    assert Entries(SymbolTable, 1) == [];
    assert Entries(SymbolTable, 0) == [Symbol("error_string", true)];
    assert SymbolName(Symbol("error_string", true)) == "real_gamemode_error_string";
  }

  /* ---------------------------------------------------------------------------
     The static client as an object
     ------------------------------------------------------------------------- */

  /** The process-wide `static GameModeClient cli` and its table. */
  class StaticClient {
    var client: Client
    const table: seq<TableEntry>

    ghost predicate ValidClient()
      reads this
    {
      Valid(client) && Terminated(table, 0)
    }

    constructor (table: seq<TableEntry>)
      requires Terminated(table, 0)
      ensures ValidClient() && client == Initial && this.table == table
    {
      this.client := Initial;
      this.table := table;
    }

    method Ensure(loader: Loader) returns (returned: Returned)
      requires ValidClient()
      modifies this
      ensures ValidClient()
      ensures returned == EnsureLibrary(old(client), table, loader).returned
      ensures client == EnsureLibrary(old(client), table, loader).client
      ensures old(client).init != 0 ==> client == old(client)
    {
      var e := EnsureLibrary(client, table, loader);
      client := e.client;
      returned := e.returned;
    }
  }
}

=== FILE: ctext.dfy ===
/** C-level value conventions shared by every part of the model: 32-bit signed
    integers and the contents `vsnprintf` leaves in a fixed-size character buffer. */
module CText {

  /** A C `int`, a `pid_t` and a `dbus_int32_t` on the platforms the program targets. */
  type Int32 = x: int | -0x8000_0000 <= x < 0x8000_0000

  function Min(a: nat, b: nat): nat {
    if a <= b then a else b
  }

  /** The string a buffer of `size` bytes holds after `vsnprintf (buf, size, ...)`
      formatted `text` into it: the longest prefix of `text` that leaves room for
      the terminating NUL. One character stands for one byte, as it does for
      ASCII text. */
  function Stored(size: nat, text: string): (s: string)
    requires size > 0
    ensures |s| <= size - 1
    ensures s <= text
    ensures |text| < size ==> s == text
    ensures |text| >= size ==> |s| == size - 1
  {
    text[..Min(|text|, size - 1)]
  }

  /** `vsnprintf` returns the length the output would have had; the stored string
      was cut short exactly when that length reaches the buffer size. */
  lemma StoredTruncatedIff(size: nat, text: string)
    requires size > 0
    ensures Stored(size, text) != text <==> |text| >= size
  {
  }
}

=== FILE: dbus_message.dfy ===
/** Abstract D-Bus messages: only what the client builds and inspects. */
module DBusMessage {

  import opened CText

  /** A marshalled argument. Only INT32 is ever produced or accepted by the
      client; every other wire type is kept as its type signature. */
  datatype Arg = Int32Arg(value: Int32) | OtherArg(signature: string)

  /** A method-call message addressed to a service name, object path and interface. */
  datatype MethodCall = MethodCall(
    destination: string,
    path: string,
    iface: string,
    member: string,
    args: seq<Arg>)

  /** What a pending call yields: a method return with its arguments, or an error
      message carrying an error name and the human-readable text libdbus
      extracts from it. */
  datatype Reply = MethodReturn(args: seq<Arg>) | ErrorReply(name: string, message: string)
}

=== FILE: gamemode_lib.dfy ===
/** The native request library (`lib/gamemode.c`): each public entry point names
    one method of the game-mode daemon, builds a method call carrying the
    caller's pid (and a target pid for the by-pid variants), sends it over the
    session bus and decodes the reply into one integer. Every failure yields -1
    and rewrites a process-wide error string.

    The bus is an oracle (`Bus`): whether connecting worked, whether libdbus could
    allocate the message, and which reply, if any, a given call receives. */
module GameModeLib {

  import opened Wrappers
  import opened CText
  import opened DBusMessage

  const BusName: string := "com.feralinteractive.GameMode"
  const BusIface: string := "com.feralinteractive.GameMode"
  const BusPath: string := "/com/feralinteractive/GameMode"

  /** Size in bytes of the static `error_string` buffer. */
  const ErrorStringSize: nat := 512

  /* ---------------------------------------------------------------------------
     log_error
     ------------------------------------------------------------------------- */

  /** What `log_error` leaves behind: its return value, the new contents of the
      error buffer, and whether it emitted the "Error log overflow" debug line. */
  datatype Logged = Logged(ret: int, errorString: string, overflowReported: bool)

  /** The overflow test as the source writes it, `n > sizeof (error_string)`,
      where `n` is what `vsnprintf` returned. */
  predicate OverflowCheckAsWritten(n: nat) {
    n > ErrorStringSize
  }

  /** The overflow test that matches `vsnprintf`'s truncation rule. */
  predicate OverflowCheck(n: nat) {
    n >= ErrorStringSize
  }

  /** `log_error` with its formatted output `text`, as written: it stores what
      fits and always returns -1, and it reports an overflow only for messages
      longer than the buffer. */
  function LogError(text: string): (l: Logged)
    ensures l.ret == -1
    ensures |l.errorString| < ErrorStringSize
    ensures l.errorString <= text
    ensures |text| < ErrorStringSize ==> l.errorString == text
    ensures l.errorString == Stored(ErrorStringSize, text)
    ensures l.overflowReported <==> |text| > ErrorStringSize
  {
    Logged(-1, Stored(ErrorStringSize, text), OverflowCheckAsWritten(|text|))
  }

  /** A formatted message of exactly 512 characters is cut to 511, yet
      `log_error` as written does not report it. */
  lemma OverflowCheckMissesExactFit()
    ensures var text := seq(512, _ => 'x');
            LogError(text).errorString != text && !LogError(text).overflowReported
  {
  }

  /** `log_error` with the overflow test corrected to `n >= sizeof (error_string)`.
      It stores and returns what the function as written does. */
  function LogErrorCorrected(text: string): (l: Logged)
    ensures l.ret == LogError(text).ret && l.errorString == LogError(text).errorString
    ensures l.overflowReported <==> l.errorString != text
  {
    StoredTruncatedIff(ErrorStringSize, text);
    Logged(-1, Stored(ErrorStringSize, text), OverflowCheck(|text|))
  }

  /** The corrected test reports exactly the messages that were truncated. */
  lemma OverflowCheckIffTruncated(text: string)
    ensures OverflowCheck(|text|) <==> Stored(ErrorStringSize, text) != text
  {
  }

  /* ---------------------------------------------------------------------------
     The six entry points and their method names
     ------------------------------------------------------------------------- */

  /** The six `real_gamemode_*` request entry points. */
  datatype Operation =
    | RequestStart
    | RequestEnd
    | QueryStatus
    | RequestStartFor(pid: Int32)
    | RequestEndFor(pid: Int32)
    | QueryStatusFor(pid: Int32)

  predicate IsForPid(op: Operation) {
    op.RequestStartFor? || op.RequestEndFor? || op.QueryStatusFor?
  }

  /** The daemon-side reading of a method name and the pid passed along with
      it: the operation a call stands for, if any. */
  function OperationOf(methodName: string, forPid: Int32): Option<Operation> {
    if methodName == "RegisterGame" then Some(RequestStart)
    else if methodName == "UnregisterGame" then Some(RequestEnd)
    else if methodName == "QueryStatus" then Some(QueryStatus)
    else if methodName == "RegisterGameByPID" then Some(RequestStartFor(forPid))
    else if methodName == "UnregisterGameByPID" then Some(RequestEndFor(forPid))
    else if methodName == "QueryStatusByPID" then Some(QueryStatusFor(forPid))
    else None
  }

  /** The pid each entry point hands to `gamemode_request`: 0 for the simple
      variants, the given pid unchanged for the by-pid ones. */
  function TargetPid(op: Operation): (p: Int32)
    ensures !IsForPid(op) ==> p == 0
    ensures IsForPid(op) ==> p == op.pid
  {
    match op
    case RequestStartFor(pid) => pid
    case RequestEndFor(pid) => pid
    case QueryStatusFor(pid) => pid
    case _ => 0
  }

  /** The D-Bus method each entry point calls. Reading the name back together
      with the pid recovers the operation, so no two entry points share a call. */
  function MethodName(op: Operation): (m: string)
    ensures OperationOf(m, TargetPid(op)) == Some(op)
    ensures IsForPid(op) <==> |m| >= 5 && m[|m| - 5..] == "ByPID"
  {
    match op
    case RequestStart => "RegisterGame"
    case RequestEnd => "UnregisterGame"
    case QueryStatus => "QueryStatus"
    case RequestStartFor(_) => "RegisterGameByPID"
    case RequestEndFor(_) => "UnregisterGameByPID"
    case QueryStatusFor(_) => "QueryStatusByPID"
  }

  /** Distinct entry points produce distinct (methodName, pid) pairs on the wire. */
  lemma MethodNameInjective(a: Operation, b: Operation)
    requires MethodName(a) == MethodName(b) && TargetPid(a) == TargetPid(b)
    ensures a == b
  {
  }

  /* ---------------------------------------------------------------------------
     Encoding the arguments, decoding the reply
     ------------------------------------------------------------------------- */

  /** How the receiving side reads an argument list: one INT32 is a request for
      the caller itself, two INT32s name a non-zero target. */
  function DecodeArgs(args: seq<Arg>): Option<(Int32, Int32)> {
    if |args| == 1 && args[0].Int32Arg? then
      Some((args[0].value, 0))
    else if |args| == 2 && args[0].Int32Arg? && args[1].Int32Arg? && args[1].value != 0 then
      Some((args[0].value, args[1].value))
    else
      None
  }

  /** The argument list `gamemode_request` appends: the caller's pid as INT32,
      then the target pid as a second INT32 only when it is non-zero. */
  function EncodeArgs(callerPid: Int32, forPid: Int32): (args: seq<Arg>)
    ensures 1 <= |args| <= 2
    ensures args[0] == Int32Arg(callerPid)
    ensures |args| == 2 <==> forPid != 0
    ensures |args| == 2 ==> args[1] == Int32Arg(forPid)
    ensures DecodeArgs(args) == Some((callerPid, forPid))
  {
    if forPid != 0 then [Int32Arg(callerPid), Int32Arg(forPid)] else [Int32Arg(callerPid)]
  }

  /** The method call `gamemode_request` builds for `methodName`. */
  function BuildCall(methodName: string, callerPid: Int32, forPid: Int32): (c: MethodCall)
    ensures c.destination == BusName && c.path == BusPath && c.iface == BusIface
    ensures c.member == methodName
    ensures DecodeArgs(c.args) == Some((callerPid, forPid))
  {
    MethodCall(BusName, BusPath, BusIface, methodName, EncodeArgs(callerPid, forPid))
  }

  /** The four ways a reply can be classified. */
  datatype Decoded = NoReply | CallError(message: string) | Unmarshalable | Value(v: Int32)

  /** The reply a daemon sends for result `v`. */
  function EncodeReply(v: Int32): Reply {
    MethodReturn([Int32Arg(v)])
  }

  /** Classify what `dbus_pending_call_steal_reply` returned. A method return is
      decoded from its FIRST argument, which must be an INT32; anything after it
      is ignored. */
  function DecodeReply(reply: Option<Reply>): (d: Decoded)
    ensures d.NoReply? <==> reply.None?
    ensures d.CallError? <==> reply.Some? && reply.value.ErrorReply?
    ensures d.CallError? ==> d.message == reply.value.message
    ensures d.Value? <==> reply.Some? && reply.value.MethodReturn?
                          && |reply.value.args| > 0 && reply.value.args[0].Int32Arg?
    ensures d.Value? ==> d.v == reply.value.args[0].value
    ensures forall v :: reply == Some(EncodeReply(v)) ==> d == Value(v)
  {
    match reply
    case None => NoReply
    case Some(ErrorReply(_, message)) => CallError(message)
    case Some(MethodReturn(args)) =>
      if |args| > 0 && args[0].Int32Arg? then Value(args[0].value) else Unmarshalable
  }

  /* ---------------------------------------------------------------------------
     gamemode_request
     ------------------------------------------------------------------------- */

  /** The environment of one request. `connectFailure` is the libdbus error text
      when `dbus_bus_get` returned NULL; `messageCreated` is whether
      `dbus_message_new_method_call` succeeded; `exchange` answers a call sent on
      the connection: the reply that completes its pending call, or None when
      `dbus_connection_send_with_reply` created no pending call. A pending call
      always ends with a reply, since libdbus supplies an error reply on a
      timeout or a lost connection. */
  datatype Bus = Bus(
    connectFailure: Option<string>,
    messageCreated: bool,
    exchange: MethodCall -> Option<Reply>)

  /** How the libdbus in use treats a NULL object argument. Its public functions
      check their arguments and report a failed check; by default the report
      aborts the process (`FatalChecks`); with `DBUS_FATAL_WARNINGS=0` in the
      environment the function returns without effect (`WarningChecks`); a
      build without checks goes on and dereferences the argument (`NoChecks`). */
  datatype Checks = FatalChecks | WarningChecks | NoChecks

  /** The contents of the 512-byte error buffer: a NUL-terminated string. */
  type ErrorBuffer = s: string | |s| < ErrorStringSize

  /** What one request produced: the returned integer, the error buffer after
      the call, and the call that was handed to the bus, if any. */
  datatype Outcome = Outcome(result: Int32, errorString: ErrorBuffer, sent: Option<MethodCall>)

  const ConnectFailedText: string := "Could not connect to bus: "
  const CreateFailedText: string := "Could not create dbus message"
  const NoReplyText: string := "Did not receive a reply"
  const UnmarshalText: string := "Could not unmarshal dbus message"

  /** The formatted text of the error-reply diagnostic. */
  function CallErrorText(methodName: string, message: string): string {
    "Could not call method '" + methodName + "' on '" + BusIface + "': " + message
  }

  /** The reply the program obtains for `call` when every libdbus call returns.
      The source does not test the connection for NULL; a libdbus that returns
      from a failed check makes sending, blocking and stealing on it no-ops, so
      no reply is obtained. */
  function Received(bus: Bus, call: MethodCall): (reply: Option<Reply>)
    ensures bus.connectFailure.Some? ==> reply.None?
    ensures bus.connectFailure.None? ==> reply == bus.exchange(call)
  {
    if bus.connectFailure.None? then bus.exchange(call) else None
  }

  /** The reply `gamemode_request` obtains for `methodName` sent by `callerPid`. */
  function ReplyFor(methodName: string, forPid: Int32, callerPid: Int32, bus: Bus): Option<Reply> {
    Received(bus, BuildCall(methodName, callerPid, forPid))
  }

  /** What `gamemode_request (methodName, for_pid)`, run by process `callerPid`
      with the error buffer holding `errorString`, computes when every libdbus
      call it makes returns. */
  function RequestResult(methodName: string, forPid: Int32, callerPid: Int32, bus: Bus, errorString: ErrorBuffer): (o: Outcome)
    // Construction failure: -1, nothing sent, the buffer names the failure.
    ensures !bus.messageCreated ==>
              o.result == -1 && o.sent.None? && o.errorString == Stored(ErrorStringSize, CreateFailedText)
    // Only a connected bus carries the call, and the call is the one built for the arguments.
    ensures o.sent.Some? <==> bus.messageCreated && bus.connectFailure.None?
    ensures o.sent.Some? ==> o.sent.value == BuildCall(methodName, callerPid, forPid)
    // The decoded reply decides the rest.
    ensures bus.messageCreated ==>
              match DecodeReply(ReplyFor(methodName, forPid, callerPid, bus))
              case Value(v) => o.result == v && o.errorString == errorString
              case NoReply => o.result == -1 && o.errorString == Stored(ErrorStringSize, NoReplyText)
              case CallError(message) =>
                o.result == -1 && o.errorString == Stored(ErrorStringSize, CallErrorText(methodName, message))
              case Unmarshalable => o.result == -1 && o.errorString == Stored(ErrorStringSize, UnmarshalText)
  {
    // A failed connection is logged with `ConnectFailedText`, but every path
    // that follows overwrites the buffer: a NULL connection never yields a
    // `Value` reply.
    if !bus.messageCreated then
      var logged := LogError(CreateFailedText);
      Outcome(logged.ret, logged.errorString, None)
    else
      var call := BuildCall(methodName, callerPid, forPid);
      var sent := if bus.connectFailure.None? then Some(call) else None;
      match DecodeReply(Received(bus, call))
      case NoReply =>
        var logged := LogError(NoReplyText);
        Outcome(logged.ret, logged.errorString, sent)
      case CallError(message) => Outcome(-1, LogError(CallErrorText(methodName, message)).errorString, sent)
      case Unmarshalable => Outcome(-1, LogError(UnmarshalText).errorString, sent)
      case Value(v) => Outcome(v, errorString, sent)
  }

  /** The libdbus objects `gamemode_request` keeps in its three local variables. */
  datatype Handle = Connection | Message | PendingCall

  const AllHandles: set<Handle> := {Connection, Message, PendingCall}

  /** The objects that are not NULL when `gamemode_request` returns: the
      connection if it was made, and the reply and pending call only when a
      reply was stolen (the request message itself is released and the
      variable reset before the reply is stolen into it). */
  function HeldAtReturn(bus: Bus, call: MethodCall): (held: set<Handle>)
    ensures Connection in held <==> bus.connectFailure.None?
    ensures Message in held <==> PendingCall in held
    ensures Message in held <==> bus.messageCreated && Received(bus, call).Some?
  {
    var connection := if bus.connectFailure.None? then {Connection} else {};
    if bus.messageCreated && bus.connectFailure.None? && bus.exchange(call).Some? then AllHandles
    else connection
  }

  /** A NULL object reaches libdbus before the function returns: the NULL
      connection in `dbus_connection_send_with_reply`, or the NULL pending call
      in `dbus_pending_call_block`. */
  predicate NullBeforeReturn(bus: Bus, call: MethodCall) {
    bus.messageCreated && (bus.connectFailure.Some? || bus.exchange(call).None?)
  }

  /** The objects the cleanup handlers pass to libdbus's `unref` functions, as
      written: each handler tests the address of its variable, which is never
      NULL, instead of the object, so all three objects are passed on. */
  const ReleasedAsWritten: set<Handle> := AllHandles

  /** `gamemode_request` as written. Its outcome is defined only when no NULL
      object reaches libdbus, or when libdbus returns from failed checks; on
      every other path the process aborts or dereferences NULL. */
  function RequestAsWritten(
    methodName: string, forPid: Int32, callerPid: Int32, bus: Bus, errorString: ErrorBuffer, checks: Checks): (o: Option<Outcome>)
    // With the default checks, only a request that obtained a reply returns.
    ensures o.Some? <==> checks.WarningChecks? || (bus.messageCreated && ReplyFor(methodName, forPid, callerPid, bus).Some?)
    ensures o.Some? ==> o.value == RequestResult(methodName, forPid, callerPid, bus, errorString)
  {
    var call := BuildCall(methodName, callerPid, forPid);
    var held := HeldAtReturn(bus, call);
    if !checks.WarningChecks? && (NullBeforeReturn(bus, call) || ReleasedAsWritten != held) then None
    else Some(RequestResult(methodName, forPid, callerPid, bus, errorString))
  }

  /** `gamemode_request` with the cleanup handlers testing the object. They then
      release exactly the objects held at return, so no NULL reaches `unref`,
      and a failed message construction returns -1 whatever the checks; the
      NULL connection and a missing pending call still reach libdbus. */
  function Request(
    methodName: string, forPid: Int32, callerPid: Int32, bus: Bus, errorString: ErrorBuffer, checks: Checks): (o: Option<Outcome>)
    ensures o.Some? <==> checks.WarningChecks? || !bus.messageCreated
                         || ReplyFor(methodName, forPid, callerPid, bus).Some?
    ensures o.Some? ==> o.value == RequestResult(methodName, forPid, callerPid, bus, errorString)
  {
    var call := BuildCall(methodName, callerPid, forPid);
    if !checks.WarningChecks? && NullBeforeReturn(bus, call) then None
    else Some(RequestResult(methodName, forPid, callerPid, bus, errorString))
  }

  /** As written, a failed message construction hands the NULL message and
      pending call to their `unref` functions, so with the default checks the
      process aborts instead of returning -1. */
  lemma CreateFailureAbortsAsWritten(methodName: string, forPid: Int32, callerPid: Int32, bus: Bus, errorString: ErrorBuffer)
    requires !bus.messageCreated
    ensures RequestAsWritten(methodName, forPid, callerPid, bus, errorString, FatalChecks).None?
  {
  }

  /** With the cleanup handlers testing the object, a failed message
      construction returns -1 and names the failure, whatever the checks. */
  lemma CreateFailureReturnsMinusOne(
    methodName: string, forPid: Int32, callerPid: Int32, bus: Bus, errorString: ErrorBuffer, checks: Checks)
    requires !bus.messageCreated
    ensures Request(methodName, forPid, callerPid, bus, errorString, checks)
              == Some(Outcome(-1, Stored(ErrorStringSize, CreateFailedText), None))
  {
  }

  /** One of the six entry points, as written. */
  function Perform(op: Operation, callerPid: Int32, bus: Bus, errorString: ErrorBuffer, checks: Checks): (o: Option<Outcome>)
    ensures o.Some? && o.value.sent.Some? ==>
              && o.value.sent.value.member == MethodName(op)
              && OperationOf(o.value.sent.value.member, TargetPid(op)) == Some(op)
              && o.value.sent.value.args == EncodeArgs(callerPid, TargetPid(op))
  {
    RequestAsWritten(MethodName(op), TargetPid(op), callerPid, bus, errorString, checks)
  }

  /** `real_gamemode_error_string`: the buffer as the last writer left it, a
      string that fits the 512-byte buffer. */
  function ErrorString(buffer: ErrorBuffer): (s: string)
    ensures |s| < ErrorStringSize
    ensures s == buffer
  {
    buffer
  }

  /* ---------------------------------------------------------------------------
     Properties relating requests
     ------------------------------------------------------------------------- */

  /** The buffer contents a failing request can leave: the diagnostic of its
      construction failure, or that of the reply it decoded. */
  function FailureDiagnostics(methodName: string, d: Decoded): set<ErrorBuffer> {
    {Stored(ErrorStringSize, CreateFailedText)}
    + match d
      case NoReply => {Stored(ErrorStringSize, NoReplyText)}
      case CallError(message) => {Stored(ErrorStringSize, CallErrorText(methodName, message))}
      case Unmarshalable => {Stored(ErrorStringSize, UnmarshalText)}
      case Value(_) => {}
  }

  /** Every request that returns either returns the daemon's well-formed answer
      or returns -1 with the buffer holding a bounded diagnostic; a request
      that does not return met a NULL in libdbus with fatal or no checks. */
  lemma RequestFailsWithMinusOne(op: Operation, callerPid: Int32, bus: Bus, errorString: ErrorBuffer, checks: Checks)
    ensures var o := Perform(op, callerPid, bus, errorString, checks);
            var d := DecodeReply(ReplyFor(MethodName(op), TargetPid(op), callerPid, bus));
            && (o.None? ==> !checks.WarningChecks?)
            && (o.Some? ==>
                  (bus.messageCreated && d.Value? && o.value.result == d.v && o.value.errorString == errorString)
                  || (o.value.result == -1 && o.value.errorString in FailureDiagnostics(MethodName(op), d)))
  {
  }

  /** An error reply returns -1 whatever the checks, and leaves a diagnostic that
      starts by naming the method and the interface. */
  lemma ErrorReplyNamesMethod(op: Operation, callerPid: Int32, bus: Bus, errorString: ErrorBuffer, checks: Checks)
    requires bus.messageCreated
    requires ReplyFor(MethodName(op), TargetPid(op), callerPid, bus).Some?
    requires ReplyFor(MethodName(op), TargetPid(op), callerPid, bus).value.ErrorReply?
    ensures var o := Perform(op, callerPid, bus, errorString, checks);
            o.Some? && o.value.result == -1
            && "Could not call method '" + MethodName(op) + "' on '" + BusIface + "'" <= o.value.errorString
  {
  }

  /** `real_gamemode_error_string` after a failing request followed by a
      successful one still reports the failure: success never clears the buffer. */
  lemma ErrorStringReportsLastFailure(
    failing: Operation, succeeding: Operation, callerPid: Int32, bus1: Bus, bus2: Bus,
    errorString: ErrorBuffer, checks: Checks)
    requires Perform(failing, callerPid, bus1, errorString, checks).Some?
    requires Perform(failing, callerPid, bus1, errorString, checks).value.result == -1
    requires bus2.messageCreated
    requires DecodeReply(ReplyFor(MethodName(succeeding), TargetPid(succeeding), callerPid, bus2)).Value?
    ensures var first := Perform(failing, callerPid, bus1, errorString, checks).value;
            var second := Perform(succeeding, callerPid, bus2, first.errorString, checks);
            second.Some? && ErrorString(second.value.errorString) == first.errorString
  {
  }

  /** The by-pid variants called with pid 0 send the by-pid method with only the
      caller's pid: the argument count follows the pid value, not the method. */
  lemma ForPidZeroSendsOneArgument(callerPid: Int32, bus: Bus, errorString: ErrorBuffer, checks: Checks)
    requires bus.messageCreated && bus.connectFailure.None?
    ensures var o := Perform(RequestStartFor(0), callerPid, bus, errorString, checks);
            && (checks.WarningChecks? ==> o.Some?)
            && (o.Some? ==> o.value.sent == Some(MethodCall(BusName, BusPath, BusIface, "RegisterGameByPID",
                                                            [Int32Arg(callerPid)])))
  {
  }
}

=== FILE: switch_controller.dfy ===
/** The tester window's built-in game-mode switch (`app/window.c`). Flipping the
    switch makes it insensitive and sends RegisterGame or UnregisterGame with
    the window's pid; the reply's integer decides which switch property is
    written back and to what. The write happens with the toggle handler
    blocked, and the switch then becomes sensitive again.

    GDBus is not modelled beyond what the handlers observe: a reply is the
    message the proxy call finished with, or None when it failed. The switch is
    its `active`, `state` and `sensitive` properties, and `SetActive` and
    `SetState` follow GTK's switch: the window's handler is connected to the
    `state-set` signal, which GTK emits only when `active` changes. */
module SwitchController {

  import opened Wrappers
  import opened CText
  import opened DBusMessage
  import GameModeLib

  /** The `GtkSwitch` properties the window reads and writes. */
  datatype Switch = Switch(active: bool, state: bool, sensitive: bool)

  /** A call on the game-mode proxy: method name and parameter tuple. */
  datatype ProxyCall = ProxyCall(methodName: string, params: seq<Arg>)

  /** The window: its pid, the switch, how many times the toggle handler is
      blocked (GLib counts blocks), how many proxy calls await their reply, and
      every call issued so far. */
  datatype Window = Window(pid: Int32, sw: Switch, blocks: nat, inFlight: nat, sent: seq<ProxyCall>)

  /** The protocol the window keeps: the handler is connected, at most one
      request is outstanding, and the switch is insensitive while it is. */
  predicate Valid(w: Window) {
    && w.blocks == 0
    && w.inFlight <= 1
    && (w.inFlight == 1 ==> !w.sw.sensitive)
  }

  /* ---------------------------------------------------------------------------
     gmt_builtin_gamemode_switch and on_builtin_switch_ready
     ------------------------------------------------------------------------- */

  /** The call `gmt_builtin_gamemode_switch` issues. It is the same message the
      library sends for its simple start and end requests. */
  function SwitchCall(pid: Int32, enable: bool): (c: ProxyCall)
    ensures c.methodName == GameModeLib.MethodName(
              if enable then GameModeLib.RequestStart else GameModeLib.RequestEnd)
    ensures c.params == GameModeLib.EncodeArgs(pid, 0)
    ensures GameModeLib.DecodeArgs(c.params) == Some((pid, 0))
  {
    ProxyCall(if enable then "RegisterGame" else "UnregisterGame", [Int32Arg(pid)])
  }

  /** `on_builtin_switch_ready`: the result defaults to -1 and is replaced only
      by the INT32 of a reply of type `(i)`. A failed call or an error reply
      ends the call with an error; a reply of another type is left alone by
      `g_variant_get`'s type check. */
  function SwitchResult(reply: Option<Reply>): (r: Int32)
    ensures r != -1 ==> reply == Some(MethodReturn([Int32Arg(r)]))
    ensures forall v :: reply == Some(MethodReturn([Int32Arg(v)])) ==> r == v
  {
    match reply
    case Some(MethodReturn(args)) =>
      if |args| == 1 && args[0].Int32Arg? then
        assert args == [Int32Arg(args[0].value)];
        args[0].value
      else -1
    case _ => -1
  }

  /** On a reply of type `(i)`, the window and the library read the same
      result; the library also accepts trailing arguments the window refuses. */
  lemma ResultAgreesWithLibrary(v: Int32)
    ensures var reply := Some(MethodReturn([Int32Arg(v)]));
            GameModeLib.DecodeReply(reply) == GameModeLib.Value(SwitchResult(reply))
    ensures var longer := Some(MethodReturn([Int32Arg(v), Int32Arg(v)]));
            GameModeLib.DecodeReply(longer) == GameModeLib.Value(v) && SwitchResult(longer) == -1
  {
  }

  /* ---------------------------------------------------------------------------
     gamemode_toggle_finish
     ------------------------------------------------------------------------- */

  /** The property `gamemode_toggle_finish` writes, and the value. */
  datatype SwitchWrite = WriteState(value: bool) | WriteActive(value: bool)

  /** The write chosen for result `r` while the switch shows `active`. An
      enable request shows on only if accepted (0); a disable request shows on
      for every result but a rejection (-2). On 0 the state is confirmed instead. */
  function FinishWrite(active: bool, r: Int32): (wr: SwitchWrite)
    ensures wr.WriteState? <==> r == 0
    ensures wr.WriteState? ==> wr.value == active
    ensures active && wr.WriteActive? ==> !wr.value
    ensures !active && wr.WriteActive? ==> (wr.value <==> r != -2)
  {
    var state := if active then r == 0 else r != -2;
    if r == 0 then WriteState(active) else WriteActive(state)
  }

  /** `on_gamemode_toggled`: make the switch insensitive, then issue the call.
      It returns TRUE, so GTK leaves `state` alone. */
  function OnToggled(w: Window, enable: bool): (w': Window)
    ensures !w'.sw.sensitive
    ensures w'.sent == w.sent + [SwitchCall(w.pid, enable)]
    ensures w'.inFlight == w.inFlight + 1
    ensures w'.sw.active == w.sw.active && w'.sw.state == w.sw.state
  {
    Window(w.pid, w.sw.(sensitive := false), w.blocks, w.inFlight + 1, w.sent + [SwitchCall(w.pid, enable)])
  }

  /** `gtk_switch_set_active`: a change of `active` emits `state-set` with the
      new value. An unblocked window handler takes the signal and returns TRUE,
      so `state` stays; while it is blocked GTK's default handler runs and sets
      `state` to the new value. Setting the current value emits nothing. */
  function SetActive(w: Window, v: bool): (w': Window)
    ensures w'.sw.active == v && w'.blocks == w.blocks
    ensures w.sw.active == v ==> w' == w
    ensures w.sw.active != v && w.blocks > 0 ==>
              w'.sw.state == v && w'.sent == w.sent && w'.inFlight == w.inFlight
              && w'.sw.sensitive == w.sw.sensitive
    ensures w.sw.active != v && w.blocks == 0 ==>
              w'.sw.state == w.sw.state && w'.sent == w.sent + [SwitchCall(w.pid, v)]
  {
    if w.sw.active == v then w
    else
      var moved := w.(sw := w.sw.(active := v));
      if w.blocks > 0 then moved.(sw := moved.sw.(state := v))
      else OnToggled(moved, v)
  }

  /** `gtk_switch_set_state`: a change of `state` is followed by
      `gtk_switch_set_active` with the same value, so `state-set` is emitted
      only when `active` differed as well. */
  function SetState(w: Window, v: bool): (w': Window)
    ensures w'.sw.state == v && w'.blocks == w.blocks
    ensures w.sw.active == v ==> w' == w.(sw := w.sw.(state := v))
  {
    if w.sw.state == v then w else SetActive(w.(sw := w.sw.(state := v)), v)
  }

  /** Apply the write `gamemode_toggle_finish` chose. */
  function Write(w: Window, wr: SwitchWrite): Window {
    match wr
    case WriteState(v) => SetState(w, v)
    case WriteActive(v) => SetActive(w, v)
  }

  /** `gamemode_toggle_finish`: block the handler, write, unblock, make the
      switch sensitive. No call goes out. On 0 the state confirms `active`;
      otherwise `active` takes the chosen value, and when that moves it, GTK's
      default handler moves `state` along. */
  function ToggleFinish(w: Window, r: Int32): (w': Window)
    ensures w'.sw.sensitive
    ensures w'.sent == w.sent && w'.inFlight == w.inFlight
    ensures w'.blocks == w.blocks
    ensures r == 0 ==> w'.sw.state == w.sw.active && w'.sw.active == w.sw.active
    ensures r != 0 ==> w'.sw.active == (if w.sw.active then false else r != -2)
    ensures r != 0 && w'.sw.active != w.sw.active ==> w'.sw.state == w'.sw.active
    ensures r != 0 && w'.sw.active == w.sw.active ==> w'.sw.state == w.sw.state
  {
    var blocked := w.(blocks := w.blocks + 1);
    var written := Write(blocked, FinishWrite(w.sw.active, r));
    written.(blocks := written.blocks - 1, sw := written.sw.(sensitive := true))
  }

  /* ---------------------------------------------------------------------------
     The event protocol
     ------------------------------------------------------------------------- */

  /** The user flips a sensitive switch: GTK moves `active` to the other
      position with the handler connected. */
  function UserToggle(w: Window): Window
    requires w.sw.sensitive
  {
    SetActive(w, !w.sw.active)
  }

  /** The proxy call finished with `reply`; the decoded result goes to
      `gamemode_toggle_finish`. */
  function ReplyArrived(w: Window, reply: Option<Reply>): (w': Window)
    requires w.inFlight > 0
    ensures w'.inFlight == w.inFlight - 1
    ensures w'.sent == w.sent
  {
    ToggleFinish(w.(inFlight := w.inFlight - 1), SwitchResult(reply))
  }

  /** Toggling keeps the protocol: the switch goes insensitive with exactly one
      call outstanding, the one for the new position, and `state` stays. */
  lemma ToggleKeepsProtocol(w: Window)
    requires Valid(w) && w.sw.sensitive
    ensures var w' := UserToggle(w);
            && Valid(w') && !w'.sw.sensitive && w'.inFlight == 1
            && w'.sent == w.sent + [SwitchCall(w.pid, !w.sw.active)]
            && w'.sw.active == !w.sw.active && w'.sw.state == w.sw.state
  {
  }

  /** A reply keeps the protocol: the switch is sensitive again, nothing is
      outstanding and nothing new was sent, whatever the result. */
  lemma ReplyKeepsProtocol(w: Window, reply: Option<Reply>)
    requires Valid(w) && w.inFlight == 1
    ensures var w' := ReplyArrived(w, reply);
            Valid(w') && w'.sw.sensitive && w'.inFlight == 0 && w'.sent == w.sent
  {
  }

  /** Without the block, the write for a result that moves `active` would issue
      a second call; the write for 0 never would. */
  lemma UnblockedFinishWouldRequest(w: Window, r: Int32)
    requires w.blocks == 0
    ensures var wr := FinishWrite(w.sw.active, r);
            var w' := Write(w, wr);
            && (r == 0 ==> w'.sent == w.sent)
            && (r != 0 ==> (w'.sent == w.sent + [SwitchCall(w.pid, wr.value)] <==> wr.value != w.sw.active))
            && (r != 0 && wr.value == w.sw.active ==> w'.sent == w.sent)
  {
  }

  /** A complete round trip. Afterwards the switch shows on exactly when an
      enable request returned 0, or a disable request returned something other
      than 0 and -2; on 0 the state confirms the requested position. `state`
      agrees with `active` except after a rejected disable request, which
      leaves `state` where it was before the flip. */
  lemma RoundTrip(w: Window, reply: Option<Reply>)
    requires Valid(w) && w.sw.sensitive
    ensures var enable := !w.sw.active;
            var w' := ReplyArrived(UserToggle(w), reply);
            var r := SwitchResult(reply);
            && Valid(w') && w'.sw.sensitive
            && w'.sent == w.sent + [SwitchCall(w.pid, enable)]
            && (w'.sw.active <==> (enable && r == 0) || (!enable && r != 0 && r != -2))
            && (r == 0 ==> w'.sw.state == enable)
            && (!enable && r == -2 ==> w'.sw.state == w.sw.state)
            && (!(!enable && r == -2) ==> w'.sw.state == w'.sw.active)
  {
  }

  /** What can happen to the window: the user flips the switch, or the
      outstanding call finishes. */
  datatype Event = Flip | Finished(reply: Option<Reply>)

  /** One event. GTK ignores input on an insensitive switch, and GIO only
      finishes calls that were issued. */
  function Step(w: Window, ev: Event): Window {
    match ev
    case Flip => if w.sw.sensitive then UserToggle(w) else w
    case Finished(reply) => if w.inFlight > 0 then ReplyArrived(w, reply) else w
  }

  function Steps(w: Window, evs: seq<Event>): Window
    decreases |evs|
  {
    if evs == [] then w else Steps(Step(w, evs[0]), evs[1..])
  }

  /** Over any sequence of events the protocol holds: never more than one call
      outstanding, the switch insensitive while one is, the handler connected,
      and calls only ever appended. */
  lemma {:induction false} StepsKeepProtocol(w: Window, evs: seq<Event>)
    requires Valid(w)
    ensures Valid(Steps(w, evs))
    ensures w.sent <= Steps(w, evs).sent
    decreases |evs|
  {
    if evs != [] {
      var next := Step(w, evs[0]);
      match evs[0] {
        case Flip =>
          if w.sw.sensitive {
            ToggleKeepsProtocol(w);
          }
        case Finished(reply) =>
          if w.inFlight > 0 {
            ReplyKeepsProtocol(w, reply);
          }
      }
      StepsKeepProtocol(next, evs[1..]);
    }
  }
}

=== FILE: wrappers.dfy ===
/** The two wrapper datatypes used throughout the model: `Option` for a value
    that may be absent (a NULL pointer in the program), `Result` for a value or
    an error description. */
module Wrappers {

  datatype Option<+T> = None | Some(value: T)

  datatype Result<+R, +E> = Success(value: R) | Failure(error: E)
}
